=== FILE: README.md ===
# RootPredict crop-yield and resource planner: a Dafny model of its pipeline

RootPredict is a single-page Streamlit form. A farmer picks a crop (maize or
rice), a land area and a climate scenario, and adjusts seasonal climate and
soil sliders. A pre-trained regression model then predicts a yield per
hectare. The app scales that yield by the land area, compares it with the
crop's historical average, and estimates the nutrients and pesticides the
land needs. An optional action fetches a ten-year daily climate history for
a city and reduces it to a baseline (mean temperature, annual rainfall). The
baseline is kept in the session and seeds the scenario sliders.

This project models the deterministic pipeline inside that form. Values are
exact Dafny `real`s, because the pipeline only adds, multiplies, divides once
and compares. It has one module per component:

- `Wrappers` (wrappers.dfy): `Option` and `Result`.
- `Errors` (errors.dfy): the per-request error conditions (no location, provider failure, no data, schema mismatch).
- `Crops` (crops.dfy): the closed crop set and its static tables.
- `Climate` (climate.dfy): the session baseline, its initialisation, the reduction of a daily history and the fetch action's effect on the baseline.
- `Scenarios` (scenarios.dfy): the three climate scenarios and the slider defaults they derive.
- `Features` (features.dfy): the feature record and the column selection in the trained model's declared order.
- `Planner` (planner.dfy): the verdict against the historical average and the resource needs.
- `Pipeline` (pipeline.dfy): the predict action end to end. The trained model is a function parameter.

Facts about app.py that the model makes explicit:

- The comparison divides by the historical average only after deciding the verdict by direct comparison (app.py:412-417). The averages of both crops are positive (app.py:20-23), so the division is always defined.
- The year count is `end.year - start.year + 1`, and only a count of 0 is replaced by 1 (app.py:283-284). For the fixed period it is 10.
- 2015-01-01 to 2024-12-31 is 3653 days, so a uniform 4.0 mm/day gives 1461.2 mm/year.
- A declared feature name missing from the record fails the whole selection (app.py:391-392). The error names every missing name once, in order of first occurrence, and the action shows it instead of a prediction (app.py:444-445).

## Model

| member | source | states |
|---|---|---|
| Crops.HistoricalAvgYield | app.py:20-23 | every crop has a historical average, and it is positive, so the `.get(crop, 0)` fallback is never used |
| Crops.Profile | app.py:26-29 | every crop has all four per-hectare constants (N, P, K, pesticides), each positive |
| Crops.ParseCrop | app.py:199-200 | a selector value is accepted exactly when it is one of the two options, and it maps back to the crop with that identifier |
| Crops.CropKeyRoundTrip | app.py:199-200 | each crop's identifier is a selector option and parses back to that crop |
| Crops.CropKeyInjective | app.py:199 | two crops share an identifier only when they are the same crop |
| Climate.InitialBaseline | app.py:32-35 | a fresh session starts at 25.0 C and 1500.0 mm/year; a session that already holds a baseline keeps it |
| Climate.InitialBaselineIdempotent | app.py:32-35 | running the initialisation again leaves the baseline unchanged |
| Climate.YearCount | app.py:283-284 | the divisor is never zero: a count of 0 becomes exactly 1, and any other count, negative ones included, is `end.year - start.year + 1`; an ordered range counts both end years |
| Climate.ReversedRangeYearCounts | app.py:283-284 | a range ending the year before it starts counts as 1 year; one reversed by two years keeps the count -1 |
| Climate.PeriodYearCount | app.py:267-284 | the fixed 2015-2024 period counts as ten years |
| Climate.Summarize | app.py:277-285 | an empty history is NoDataAvailable; otherwise mean temperature times day count is the temperature total, and annual rainfall times year count is the precipitation total |
| Climate.SumAppend | app.py:280 | the total of a concatenation of two sequences of reals is the sum of their totals |
| Climate.PrecipitationTotalAppend | app.py:280 | the precipitation total of two consecutive daily histories is the sum of their totals |
| Climate.MeanTemperatureWithinDailyRange | app.py:279 | the mean temperature lies between any lower and upper bound of the daily averages |
| Climate.UniformRainfallAnnualised | app.py:267-285 | a full 3653-day history with the same daily precipitation c gives 365.3 * c mm/year |
| Climate.FetchClimateAverages | app.py:252-307 | the baseline is replaced exactly when the lookup succeeds with a non-empty history, and then it is that history's summary; every failure is reported and leaves the baseline as it was |
| Climate.SuccessfulFetchIgnoresPrior | app.py:292-293 | a successful fetch's result does not depend on the prior baseline, so repeating it changes nothing |
| Scenarios.Params | app.py:320-324 | each scenario's offset is non-negative and its rainfall factor is in (0, 1] |
| Scenarios.Adjust | app.py:334-335 | the rainfall default is the baseline rainfall times the factor; subtracting the offset from the temperature default, and dividing the rainfall default by a non-zero factor, gives back the baseline |
| Scenarios.BuildDefaults | app.py:326-335 | a scenario never lowers the temperature default, and never raises a non-negative rainfall default or makes it negative |
| Scenarios.RecoverBaseline | app.py:334-335 | inverse of the adjustment: re-applying the adjustment gives the defaults back |
| Scenarios.ScenarioRoundTrip | app.py:320-335 | the defaults of every scenario determine the baseline they came from |
| Scenarios.BaselineScenarioIsIdentity | app.py:320-335 | the Baseline scenario passes the session baseline to the sliders unchanged |
| Scenarios.AdjustLinear | app.py:334-335 | doubling the offset doubles its contribution to the temperature default; a factor of 1 keeps the rainfall |
| Scenarios.ScenariosOrdered | app.py:320-324 | Baseline, Moderate and Severe warming have rising temperature defaults and, for non-negative rainfall, non-increasing rainfall defaults |
| Scenarios.Truncate | app.py:356 | the integer is the real truncated toward zero: within one of it, and not beyond it away from zero |
| Scenarios.NutrientSliderDefaults | app.py:356-362 | the N, P and K defaults are the crop averages truncated to whole kg/ha; the pesticide default is the exact average |
| Scenarios.MaizeNutrientDefaults | app.py:356-362 | maize sliders start at 77, 48 and 19 kg/ha and 327.66 t/ha |
| Features.CropFlag | app.py:387-388 | a flag is 0 or 1, and it is 1 exactly when the selected crop has that identifier |
| Features.AssembleRecord | app.py:376-389 | the record has exactly the twelve names, avg_temp equals temperature equals the seasonal temperature, and the two crop flags sum to 1 |
| Features.RecordRoundTrip | app.py:376-389 | the inputs can be read back from the record, so every input reaches the record under its own name |
| Features.RecordFields | app.py:376-389 | each record name holds its own input value |
| Features.OneHotFlags | app.py:387-388 | label_maize is 1 exactly for maize, label_rice is 1 exactly for rice, and exactly one of them is 1 |
| Features.SelectColumns | app.py:391-392 | selection succeeds exactly when every requested name is in the record; then it has one value per name, in order; otherwise it fails naming exactly the requested names the record lacks, each once, and fills in nothing |
| Features.Columns | app.py:392 | one value per requested name, position j holding the record's value for the j-th name |
| Features.MissingNames | app.py:392 | the reported names are exactly the requested names the record lacks, without repeats, and there are none exactly when every name is present |
| Features.MissingNamesInFirstOccurrenceOrder | app.py:392 | the reported names appear in the order of their first occurrence in the request |
| Features.SelectAppend | app.py:392 | selecting a concatenated order concatenates the two selections |
| Features.AssembleFeatures | app.py:376-392 | the row exists exactly when every declared feature is one of the twelve names; then position j holds the value of the j-th declared name; otherwise the error is the list of declared names outside the record, each once, in order of first occurrence |
| Features.SelectionFollowsPermutation | app.py:392 | permuting the declared order permutes the row the same way |
| Features.RecordOrderCoversKeys | app.py:376-389 | the record's written order has twelve entries, lists every record name and nothing else |
| Features.RecordOrderDistinct | app.py:376-389 | the written order lists each name once, so the record has exactly twelve keys |
| Features.RecordOrderAccepted | app.py:376-392 | a model declaring the record's own order is served a 12-value row with the seasonal temperature in both temperature columns |
| Features.MisspeltFeatureRejected | app.py:391-392 | a misspelt declared name is a SchemaMismatch naming it; a repeated missing name is reported once, before a later missing name |
| Features.MissingNamesTwoExample | app.py:392 | from a request naming tempreature, N and pH, the report is tempreature then pH |
| Features.MissingNamesRepeatExample | app.py:392 | from a request naming tempreature, N, pH and tempreature again, the report is tempreature then pH |
| Planner.Compare | app.py:412-417 | for a positive average: Above iff predicted > historical, Below iff predicted < historical, Equal iff they are equal; the percent is positive and times the average equals 100 times the gap |
| Planner.VerdictMatchesSignedDelta | app.py:412-417 | the verdict agrees with the sign of (p-h)/h*100; the Above percent is that delta and the Below percent is its negation |
| Planner.Needs | app.py:425-438 | each need is the crop's static per-hectare constant times the land area, for any area; dividing by a non-zero area gives the constant back, and needs are positive for positive land |
| Planner.NeedsAdditive | app.py:425-438 | the needs of two plots add up to the needs of their combined area |
| Pipeline.PredictAndPlan | app.py:374-445 | the action fails exactly when a declared feature is not in the record, and then it names exactly those features, each once, in order of first occurrence; otherwise the yield is the model's output on the assembled row, the total is that yield times the area, for any area, the verdict is the comparison of that yield with the crop's historical average (with its positive percent), and the needs are the crop's static needs |
| Pipeline.NeedsIgnoreSliders | app.py:425-438 | two requests for the same crop and area report the same resource needs, whatever their slider values |
| Pipeline.MaizeTenHectares | app.py:396-438 | ten hectares of maize predicted at 400 t/ha give 4000 t, Above by (400-363.10)/363.10*100 percent, and 777.6/484.4/197.9/3276.6 of N/P/K/pesticides |

## Left out

- The page itself is not modelled: layout, CSS, text, images, `st.rerun`, the selectors and the sliders (app.py:38-190, 336-362, 447-476). A scenario default outside a slider's range, such as a fetched baseline below 15 C at app.py:340 or a rainfall default below 500 mm/year at app.py:348, makes the slider raise, and no handler surrounds it, so the page stops. This is widget behaviour, so the slider defaults are modelled without their ranges. The land-area input's bounds of 1 to 10000 are widget behaviour too, so the model accepts any area.
- The current-weather action (app.py:207-243) only displays the geocoding and weather results. It changes no state, so it is not modelled.
- Network calls are not modelled: geocoding, the weather API and the climate-history fetch are all I/O. `Climate.FetchClimateAverages` takes their combined outcome as a parameter: a daily history, or the error that stopped it.
- Pandas skips missing (NaN) values in `mean` and `sum`. The model takes every daily value as present.
- Loading the trained model and its feature-order list at start-up is I/O, and a missing file stops the app (app.py:12-17). The model's `predict` is an uninterpreted function parameter of `Pipeline.PredictAndPlan`. The declared order is a plain sequence of names.
- The API key configuration (app.py:9) is deployment configuration, not logic.
- Floating-point rounding and the two-decimal display formatting are not modelled: values are exact reals.
- Planner.Compare: requires a positive historical average. The crop table gives only positive averages, so a zero average never reaches the comparison. What the code would show for one depends on the numeric type the trained model returns: a NumPy float divided by zero gives an infinite percentage, and a Python float raises an error that the action's handler shows.
- Features.SelectColumns: the error carries the missing names, not the wording of the pandas message. When no requested name is present, pandas words the message differently and lists the whole request.
- Errors raised inside the trained model, which the predict action's general handler would also catch and display (app.py:444-445), are not modelled: the model parameter is a total function.

=== FILE: climate.dfy ===
/** The climate baseline kept in the session, and the reduction of a fetched
    daily climate history to that baseline. */
module Climate {

  import opened Wrappers
  import opened Errors

  /** The two session values that seed the scenario sliders: mean daily
      temperature in degrees Celsius and annual rainfall in mm/year. */
  datatype ClimateBaseline = ClimateBaseline(avgTemp: real, avgAnnualRainfall: real)

  /** The values a fresh session starts from. */
  const FallbackBaseline: ClimateBaseline := ClimateBaseline(25.0, 1500.0)

  /** Session initialisation. The two session keys are only ever written
      together, so a session holds either both or neither; an existing pair
      is kept and a missing one is replaced by the fallback. */
  function InitialBaseline(stored: Option<ClimateBaseline>): (b: ClimateBaseline)
    ensures stored.Some? ==> b == stored.value
    ensures stored.None? ==> b.avgTemp == 25.0 && b.avgAnnualRainfall == 1500.0
  {
    match stored
    case Some(existing) => existing
    case None => FallbackBaseline
  }

  /** Initialising a session twice changes nothing. */
  lemma InitialBaselineIdempotent(stored: Option<ClimateBaseline>)
    ensures InitialBaseline(Some(InitialBaseline(stored))) == InitialBaseline(stored)
  {
  }

  /** One row of the daily climate history: average temperature and precipitation. */
  datatype DailyRecord = DailyRecord(tavg: real, prcp: real)

  datatype Date = Date(year: int, month: int, day: int)

  /** The fixed ten-year period whose history is fetched. */
  const PeriodStart: Date := Date(2015, 1, 1)
  const PeriodEnd: Date := Date(2024, 12, 31)

  function Sum(xs: seq<real>): real
  {
    if |xs| == 0 then 0.0 else xs[0] + Sum(xs[1..])
  }

  function Temperatures(days: seq<DailyRecord>): (ts: seq<real>)
    ensures |ts| == |days|
    ensures forall i :: 0 <= i < |days| ==> ts[i] == days[i].tavg
  {
    seq(|days|, i requires 0 <= i < |days| => days[i].tavg)
  }

  function Precipitations(days: seq<DailyRecord>): (ps: seq<real>)
    ensures |ps| == |days|
    ensures forall i :: 0 <= i < |days| ==> ps[i] == days[i].prcp
  {
    seq(|days|, i requires 0 <= i < |days| => days[i].prcp)
  }

  /** The number of calendar years the range touches, both end years included;
      a count of zero (an end one year before the start) is replaced by one. */
  function YearCount(start: Date, end: Date): (n: int)
    ensures n != 0
    ensures end.year - start.year + 1 == 0 ==> n == 1
    ensures end.year - start.year + 1 != 0 ==> n == end.year - start.year + 1
    ensures start.year <= end.year ==> n >= 1
  {
    var years := end.year - start.year + 1;
    if years == 0 then 1 else years
  }

  /** The fixed period spans ten calendar years. */
  lemma PeriodYearCount()
    ensures YearCount(PeriodStart, PeriodEnd) == 10
  {
  }

  /** A range ending the year before it starts counts as one year; one
      reversed by two years keeps its count of -1. */
  lemma ReversedRangeYearCounts()
    ensures YearCount(Date(2025, 1, 1), Date(2024, 12, 31)) == 1
    ensures YearCount(Date(2026, 1, 1), Date(2024, 12, 31)) == -1
  {
  }

  /** Reduces a fetched daily history to a baseline: the mean daily average
      temperature and the total precipitation divided by the year count.
      An empty history is the NoDataAvailable error. */
  function Summarize(days: seq<DailyRecord>, start: Date, end: Date): (r: Result<ClimateBaseline, ClimateError>)
    ensures r.Failure? <==> |days| == 0
    ensures r.Failure? ==> r.error == NoDataAvailable
    ensures r.Success? ==> r.value.avgTemp * (|days| as real) == Sum(Temperatures(days))
    ensures r.Success? ==> r.value.avgAnnualRainfall * (YearCount(start, end) as real) == Sum(Precipitations(days))
  {
    if |days| == 0 then Failure(NoDataAvailable)
    else
      var meanTemp := Sum(Temperatures(days)) / (|days| as real);
      var annualRain := Sum(Precipitations(days)) / (YearCount(start, end) as real);
      Success(ClimateBaseline(meanTemp, annualRain))
  }

  lemma {:induction false} SumAppend(a: seq<real>, b: seq<real>)
    ensures Sum(a + b) == Sum(a) + Sum(b)
    decreases |a|
  {
    if |a| == 0 {
      assert a + b == b;
    } else {
      assert (a + b)[1..] == a[1..] + b;
      SumAppend(a[1..], b);
    }
  }

  /** The precipitation total of two consecutive histories is the sum of
      their totals. */
  lemma PrecipitationTotalAppend(a: seq<DailyRecord>, b: seq<DailyRecord>)
    ensures Sum(Precipitations(a + b)) == Sum(Precipitations(a)) + Sum(Precipitations(b))
  {
    assert Precipitations(a + b) == Precipitations(a) + Precipitations(b);
    SumAppend(Precipitations(a), Precipitations(b));
  }

  lemma {:induction false} SumBounds(xs: seq<real>, lo: real, hi: real)
    requires forall i :: 0 <= i < |xs| ==> lo <= xs[i] <= hi
    ensures lo * (|xs| as real) <= Sum(xs) <= hi * (|xs| as real)
    decreases |xs|
  {
    if |xs| > 0 {
      SumBounds(xs[1..], lo, hi);
    }
  }

  lemma {:induction false} SumConstant(xs: seq<real>, c: real)
    requires forall i :: 0 <= i < |xs| ==> xs[i] == c
    ensures Sum(xs) == (|xs| as real) * c
    decreases |xs|
  {
    if |xs| > 0 {
      SumConstant(xs[1..], c);
    }
  }

  /** The fetched mean temperature lies between the coldest and the warmest
      daily average of the history. */
  lemma MeanTemperatureWithinDailyRange(days: seq<DailyRecord>, start: Date, end: Date, lo: real, hi: real)
    requires |days| > 0
    requires forall i :: 0 <= i < |days| ==> lo <= days[i].tavg <= hi
    ensures Summarize(days, start, end).Success?
    ensures lo <= Summarize(days, start, end).value.avgTemp <= hi
  {
    var ts := Temperatures(days);
    SumBounds(ts, lo, hi);
    QuotientBounds(Sum(ts), |days| as real, lo, hi);
  }

  lemma QuotientBounds(s: real, n: real, lo: real, hi: real)
    requires n > 0.0
    requires lo * n <= s <= hi * n
    ensures lo <= s / n <= hi
  {
    assert (s / n) * n == s;
  }

  /** A complete daily history of the fixed period (3653 days: ten years of
      365 days plus the leap days of 2016, 2020 and 2024) with the same
      precipitation c every day annualises to 365.3 * c; for c = 4.0 that is
      1461.2 mm/year. */
  lemma UniformRainfallAnnualised(days: seq<DailyRecord>, c: real)
    requires |days| == 3653
    requires forall i :: 0 <= i < |days| ==> days[i].prcp == c
    ensures Summarize(days, PeriodStart, PeriodEnd).Success?
    ensures Summarize(days, PeriodStart, PeriodEnd).value.avgAnnualRainfall == 365.3 * c
  {
    SumConstant(Precipitations(days), c);
    PeriodYearCount();
  }

  /** What the historical-climate action leaves in the session, and the error
      it shows if any. */
  datatype FetchOutcome = FetchOutcome(baseline: ClimateBaseline, error: Option<ClimateError>)

  /** The historical-climate action over the fixed period. The lookup stands
      for geocoding plus the provider fetch; its failure, or an empty history,
      is reported and leaves the session baseline as it was. */
  function FetchClimateAverages(current: ClimateBaseline, lookup: Result<seq<DailyRecord>, ClimateError>): (o: FetchOutcome)
    ensures o.error.None? <==> lookup.Success? && |lookup.value| > 0
    ensures o.error.Some? ==> o.baseline == current
    ensures lookup.Failure? ==> o.error == Some(lookup.error)
    ensures lookup.Success? && |lookup.value| == 0 ==> o.error == Some(NoDataAvailable)
    ensures o.error.None? ==> Summarize(lookup.value, PeriodStart, PeriodEnd) == Success(o.baseline)
  {
    match lookup
    case Failure(e) => FetchOutcome(current, Some(e))
    case Success(days) =>
      match Summarize(days, PeriodStart, PeriodEnd)
      case Failure(e) => FetchOutcome(current, Some(e))
      case Success(b) => FetchOutcome(b, None)
  }

  /** A successful fetch overwrites the baseline entirely: its result does not
      depend on what the session held before, so repeating it is idempotent. */
  lemma SuccessfulFetchIgnoresPrior(a: ClimateBaseline, b: ClimateBaseline, lookup: Result<seq<DailyRecord>, ClimateError>)
    requires FetchClimateAverages(a, lookup).error.None?
    ensures FetchClimateAverages(b, lookup) == FetchClimateAverages(a, lookup)
    ensures FetchClimateAverages(FetchClimateAverages(a, lookup).baseline, lookup) == FetchClimateAverages(a, lookup)
  {
  }
}

=== FILE: crops.dfy ===
/** The closed set of supported crops and the static per-crop lookup tables. */
module Crops {

  import opened Wrappers

  datatype Crop = Maize | Rice

  /** The identifier the crop selector offers and the tables are keyed by. */
  function CropKey(c: Crop): string
  {
    match c
    case Maize => "maize"
    case Rice => "rice"
  }

  /** The options of the crop selector, in display order. */
  const CropOptions: seq<string> := ["maize", "rice"]

  /** Reads a selector value back as a crop; anything outside the options is None. */
  function ParseCrop(key: string): (r: Option<Crop>)
    ensures r.Some? <==> key in CropOptions
    ensures r.Some? ==> CropKey(r.value) == key
  {
    if key == "maize" then Some(Maize)
    else if key == "rice" then Some(Rice)
    else None
  }

  /** Per-hectare averages of one crop: nutrients in kg, pesticides in tonnes. */
  datatype NutrientProfile = NutrientProfile(n: real, p: real, k: real, pesticidesBase: real)

  /** Historical average yield per hectare of each crop. */
  function HistoricalAvgYield(c: Crop): (h: real)
    ensures h > 0.0
  {
    match c
    case Maize => 363.10
    case Rice => 407.30
  }

  /** Average nutrient and pesticide use per hectare of each crop. */
  function Profile(c: Crop): (pr: NutrientProfile)
    ensures pr.n > 0.0 && pr.p > 0.0 && pr.k > 0.0 && pr.pesticidesBase > 0.0
  {
    match c
    case Maize => NutrientProfile(77.76, 48.44, 19.79, 327.66)
    case Rice => NutrientProfile(79.89, 47.58, 39.87, 369.42)
  }

  /** The selector options and the crop identifiers are the same set, each crop once. */
  lemma CropKeyRoundTrip(c: Crop)
    ensures CropKey(c) in CropOptions
    ensures ParseCrop(CropKey(c)) == Some(c)
  {
  }

  lemma CropKeyInjective(c: Crop, d: Crop)
    ensures CropKey(c) == CropKey(d) <==> c == d
  {
    if c != d {
      assert CropKey(c)[0] != CropKey(d)[0];
    }
  }
}

=== FILE: errors.dfy ===
/** The per-request error conditions the planner reports to the user. */
module Errors {

  /** Failures of the historical-climate action: the geocoding lookup found no
      place, a provider call failed, or the provider returned no daily rows. */
  datatype ClimateError = LocationNotFound | ProviderError | NoDataAvailable

  /** Failure of the predict action: names the trained model declares that the
      assembled record lacks, each once, in the order they first appear. */
  datatype PredictionError = SchemaMismatch(missing: seq<string>)
}

=== FILE: features.dfy ===
/** Assembly of the model's input row: the name-to-value record built from
    the scenario inputs, and the selection of its columns in the order the
    trained model declares. */
module Features {

  import opened Wrappers
  import opened Errors
  import opened Crops

  /** The user-adjusted values of one prediction request that reach the model. */
  datatype ScenarioInputs = ScenarioInputs(
    crop: Crop,
    n: real,
    p: real,
    k: real,
    temperature: real,
    humidity: real,
    ph: real,
    rainfall: real,
    annualRainfall: real,
    pesticides: real)

  /** The twelve names of the assembled record. */
  const RecordKeys: set<string> := {
    "N", "P", "K", "temperature", "humidity", "ph", "rainfall",
    "average_rain_fall_mm_per_year", "pesticides_tonnes", "avg_temp",
    "label_maize", "label_rice"}

  /** The record's names in the order they are written; a trained model's
      declared order is an external input and need not be this one. */
  const RecordOrder: seq<string> := [
    "N", "P", "K", "temperature", "humidity", "ph", "rainfall",
    "average_rain_fall_mm_per_year", "pesticides_tonnes", "avg_temp",
    "label_maize", "label_rice"]

  /** A one-hot flag: 1 when the selected crop is the named one, else 0. */
  function CropFlag(c: Crop, key: string): (v: real)
    ensures v == 1.0 <==> CropKey(c) == key
    ensures v == 0.0 || v == 1.0
  {
    if CropKey(c) == key then 1.0 else 0.0
  }

  /** The record handed to the model. avg_temp repeats the seasonal
      temperature, and the crop becomes two one-hot flags. */
  function AssembleRecord(i: ScenarioInputs): (r: map<string, real>)
    ensures r.Keys == RecordKeys
    ensures r["avg_temp"] == r["temperature"] == i.temperature
    ensures r["label_maize"] + r["label_rice"] == 1.0
  {
    map[
      "N" := i.n,
      "P" := i.p,
      "K" := i.k,
      "temperature" := i.temperature,
      "humidity" := i.humidity,
      "ph" := i.ph,
      "rainfall" := i.rainfall,
      "average_rain_fall_mm_per_year" := i.annualRainfall,
      "pesticides_tonnes" := i.pesticides,
      "avg_temp" := i.temperature,
      "label_maize" := CropFlag(i.crop, "maize"),
      "label_rice" := CropFlag(i.crop, "rice")]
  }

  /** Reads a record back into scenario inputs. It fails on a missing name,
      on avg_temp differing from temperature, and on flags that are not
      exactly one 1 and one 0. */
  function DecodeRecord(r: map<string, real>): (o: Option<ScenarioInputs>)
    ensures o.Some? ==> RecordKeys <= r.Keys
  {
    if !(RecordKeys <= r.Keys) then None
    else if r["avg_temp"] != r["temperature"] then None
    else
      var crop :=
        if r["label_maize"] == 1.0 && r["label_rice"] == 0.0 then Some(Maize)
        else if r["label_maize"] == 0.0 && r["label_rice"] == 1.0 then Some(Rice)
        else None;
      match crop
      case None => None
      case Some(c) =>
        Some(ScenarioInputs(c, r["N"], r["P"], r["K"], r["temperature"], r["humidity"], r["ph"],
                            r["rainfall"], r["average_rain_fall_mm_per_year"], r["pesticides_tonnes"]))
  }

  /** Every field of the inputs reaches the record under its own name: the
      record determines the inputs it was built from. */
  lemma RecordRoundTrip(i: ScenarioInputs)
    ensures DecodeRecord(AssembleRecord(i)) == Some(i)
  {
    var r := AssembleRecord(i);
    assert "avg_temp" in r && "temperature" in r;
    match i.crop
    case Maize =>
      assert r["label_maize"] == 1.0 && r["label_rice"] == 0.0;
    case Rice =>
      CropKeyInjective(Rice, Maize);
      assert r["label_maize"] == 0.0 && r["label_rice"] == 1.0;
  }

  /** Exactly one crop flag is 1, and it is the selected crop's. */
  lemma OneHotFlags(i: ScenarioInputs)
    ensures AssembleRecord(i)["label_maize"] == 1.0 <==> i.crop == Maize
    ensures AssembleRecord(i)["label_rice"] == 1.0 <==> i.crop == Rice
    ensures AssembleRecord(i)["label_maize"] == 1.0 <==> AssembleRecord(i)["label_rice"] == 0.0
  {
    CropKeyInjective(i.crop, Maize);
    CropKeyInjective(i.crop, Rice);
  }

  /** True when every name of the order is in the record. */
  predicate AllPresent(record: map<string, real>, order: seq<string>)
  {
    forall j :: 0 <= j < |order| ==> order[j] in record
  }

  /** The record's values under the given names, in order, repeats allowed. */
  function Columns(record: map<string, real>, order: seq<string>): (vs: seq<real>)
    requires AllPresent(record, order)
    ensures |vs| == |order|
    ensures forall j :: 0 <= j < |order| ==> vs[j] == record[order[j]]
    decreases |order|
  {
    if |order| == 0 then []
    else [record[order[0]]] + Columns(record, order[1..])
  }

  predicate NoDuplicates(s: seq<string>)
  {
    forall i, j :: 0 <= i < j < |s| ==> s[i] != s[j]
  }

  /** The position where a name first occurs. */
  function FirstIndex(s: seq<string>, x: string): (k: nat)
    requires x in s
    ensures k < |s| && s[k] == x
    ensures forall j :: 0 <= j < k ==> s[j] != x
  {
    if s[0] == x then 0 else 1 + FirstIndex(s[1..], x)
  }

  /** The names of the order the record lacks, each once, kept where they
      first occur. */
  function MissingNames(record: map<string, real>, order: seq<string>): (m: seq<string>)
    ensures forall x :: x in m <==> x in order && x !in record
    ensures NoDuplicates(m)
    ensures |m| == 0 <==> AllPresent(record, order)
    decreases |order|
  {
    if |order| == 0 then []
    else
      var front := order[..|order| - 1];
      var last := order[|order| - 1];
      assert order == front + [last];
      var rest := MissingNames(record, front);
      if last !in record && last !in rest then rest + [last] else rest
  }

  /** A name keeps its first position when names are appended after it. */
  lemma FirstIndexPrefix(s: seq<string>, t: seq<string>, x: string)
    requires x in s
    ensures FirstIndex(s + t, x) == FirstIndex(s, x)
  {
    var k := FirstIndex(s, x);
    var k' := FirstIndex(s + t, x);
    assert (s + t)[k] == x;
  }

  /** Every name of m occurs in s, and m lists them in the order they first occur in s. */
  predicate InFirstOccurrenceOrder(m: seq<string>, s: seq<string>)
  {
    && (forall i :: 0 <= i < |m| ==> m[i] in s)
    && forall i, j :: 0 <= i < j < |m| ==> FirstIndex(s, m[i]) < FirstIndex(s, m[j])
  }

  /** The missing names are listed in the order of their first occurrence. */
  lemma {:induction false} MissingNamesInFirstOccurrenceOrder(record: map<string, real>, order: seq<string>)
    ensures InFirstOccurrenceOrder(MissingNames(record, order), order)
    decreases |order|
  {
    if |order| > 0 {
      var front := order[..|order| - 1];
      var last := order[|order| - 1];
      assert order == front + [last];
      var rest := MissingNames(record, front);
      MissingNamesInFirstOccurrenceOrder(record, front);
      var m := MissingNames(record, order);
      var grows := last !in record && last !in rest;
      assert m == if grows then rest + [last] else rest;
      assert forall i :: 0 <= i < |m| ==> m[i] in order;
      forall i, j | 0 <= i < j < |m|
        ensures FirstIndex(order, m[i]) < FirstIndex(order, m[j])
      {
        assert m[i] == rest[i] && rest[i] in front;
        FirstIndexPrefix(front, [last], m[i]);
        if j < |rest| {
          assert m[j] == rest[j] && rest[j] in front;
          FirstIndexPrefix(front, [last], m[j]);
          assert InFirstOccurrenceOrder(rest, front);
          assert FirstIndex(front, rest[i]) < FirstIndex(front, rest[j]);
        } else {
          assert m[j] == last && last !in front;
          assert FirstIndex(order, last) == |front|;
        }
      }
    }
  }

  /** The record's columns in the given order, as pandas column selection
      does. If any name is missing the selection fails, naming every missing
      name; nothing is filled in. */
  function SelectColumns(record: map<string, real>, order: seq<string>): (r: Result<seq<real>, PredictionError>)
    ensures r.Success? <==> AllPresent(record, order)
    ensures r.Success? ==> |r.value| == |order|
    ensures r.Success? ==> forall j :: 0 <= j < |order| ==> r.value[j] == record[order[j]]
    ensures r.Failure? ==> |r.error.missing| > 0 && NoDuplicates(r.error.missing)
    ensures r.Failure? ==> forall x :: x in r.error.missing <==> x in order && x !in record
    ensures r.Failure? ==> r.error == SchemaMismatch(MissingNames(record, order))
  {
    if AllPresent(record, order) then Success(Columns(record, order))
    else Failure(SchemaMismatch(MissingNames(record, order)))
  }

  /** Selecting the columns of a concatenated order is concatenating the
      selections, when both succeed. */
  lemma {:induction false} SelectAppend(record: map<string, real>, a: seq<string>, b: seq<string>)
    requires AllPresent(record, a) && AllPresent(record, b)
    ensures SelectColumns(record, a + b) == Success(SelectColumns(record, a).value + SelectColumns(record, b).value)
  {
    var whole := SelectColumns(record, a + b);
    assert AllPresent(record, a + b) by {
      forall j | 0 <= j < |a + b|
        ensures (a + b)[j] in record
      {
        if j >= |a| {
          assert (a + b)[j] == b[j - |a|];
        }
      }
    }
    var va := SelectColumns(record, a).value;
    var vb := SelectColumns(record, b).value;
    assert whole.value == va + vb;
  }

  /** The model's input row: the record's columns in the model's order. */
  function AssembleFeatures(i: ScenarioInputs, modelFeatures: seq<string>): (r: Result<seq<real>, PredictionError>)
    ensures r.Success? <==> forall j :: 0 <= j < |modelFeatures| ==> modelFeatures[j] in RecordKeys
    ensures r.Success? ==> |r.value| == |modelFeatures|
    ensures r.Success? ==> forall j :: 0 <= j < |modelFeatures| ==> r.value[j] == AssembleRecord(i)[modelFeatures[j]]
    ensures r.Failure? ==> |r.error.missing| > 0 && NoDuplicates(r.error.missing)
    ensures r.Failure? ==> forall x :: x in r.error.missing <==> x in modelFeatures && x !in RecordKeys
    ensures r.Failure? ==> r.error == SchemaMismatch(MissingNames(AssembleRecord(i), modelFeatures))
  {
    SelectColumns(AssembleRecord(i), modelFeatures)
  }

  /** Reordering the model's names reorders the row the same way: whatever
      permutation the order is, each position holds its own name's value. */
  lemma SelectionFollowsPermutation(i: ScenarioInputs, order: seq<string>, perm: seq<nat>)
    requires AllPresent(AssembleRecord(i), order)
    requires forall j :: 0 <= j < |perm| ==> perm[j] < |order|
    ensures var permuted := seq(|perm|, j requires 0 <= j < |perm| => order[perm[j]]);
            AssembleFeatures(i, permuted).Success? &&
            forall j :: 0 <= j < |perm| ==>
              AssembleFeatures(i, permuted).value[j] == AssembleFeatures(i, order).value[perm[j]]
  {
  }

  /** Each name of the record holds its own input. */
  lemma RecordFields(i: ScenarioInputs)
    ensures var rec := AssembleRecord(i);
            && rec["N"] == i.n && rec["P"] == i.p && rec["K"] == i.k
            && rec["humidity"] == i.humidity && rec["ph"] == i.ph && rec["rainfall"] == i.rainfall
            && rec["average_rain_fall_mm_per_year"] == i.annualRainfall
            && rec["pesticides_tonnes"] == i.pesticides
            && rec["label_maize"] == CropFlag(i.crop, "maize")
            && rec["label_rice"] == CropFlag(i.crop, "rice")
  {
  }

  /** The written order lists every record name and nothing else. */
  lemma RecordOrderCoversKeys()
    ensures forall j :: 0 <= j < |RecordOrder| ==> RecordOrder[j] in RecordKeys
    ensures forall x :: x in RecordKeys ==> x in RecordOrder
    ensures |RecordOrder| == 12
  {
    var names := RecordOrder;
    assert forall j :: 0 <= j < |names| ==> names[j] in RecordKeys;
  }

  /** Two names are told apart by their length or their first letter. */
  predicate Distinguishable(a: string, b: string)
  {
    |a| != |b| || (|a| > 0 && |b| > 0 && a[0] != b[0])
  }

  /** The written order lists each name once, so the record has twelve keys:
      any two of its names differ in length or in first letter. */
  lemma RecordOrderDistinct()
    ensures NoDuplicates(RecordOrder)
    ensures |RecordKeys| == 12
  {
    var names := RecordOrder;
    assert forall i, j :: 0 <= i < j < |names| ==> Distinguishable(names[i], names[j]);
    RecordOrderCoversKeys();
    DistinctListSize(names, RecordKeys);
  }

  /** A list without repeats whose elements are exactly a set has the set's size. */
  lemma {:induction false} DistinctListSize(s: seq<string>, keys: set<string>)
    requires NoDuplicates(s)
    requires forall j :: 0 <= j < |s| ==> s[j] in keys
    requires forall x :: x in keys ==> x in s
    ensures |keys| == |s|
    decreases |s|
  {
    if |s| > 0 {
      var rest := s[1..];
      assert forall x :: x in keys - {s[0]} ==> x in rest by {
        forall x | x in keys - {s[0]}
          ensures x in rest
        {
          var j :| 0 <= j < |s| && s[j] == x;
          assert j > 0 && rest[j - 1] == x;
        }
      }
      DistinctListSize(rest, keys - {s[0]});
    }
  }

  /** A model that declares the record's own order is always served, with
      the seasonal temperature in both the temperature and avg_temp columns. */
  lemma RecordOrderAccepted(i: ScenarioInputs)
    ensures AssembleFeatures(i, RecordOrder).Success?
    ensures |AssembleFeatures(i, RecordOrder).value| == 12
    ensures AssembleFeatures(i, RecordOrder).value[3] == i.temperature
    ensures AssembleFeatures(i, RecordOrder).value[9] == i.temperature
  {
    RecordOrderCoversKeys();
    assert RecordOrder[3] == "temperature" && RecordOrder[9] == "avg_temp";
  }

  /** A record that has "N" but neither "tempreature" nor "pH" reports the
      one misspelt name of a two-name order. */
  lemma MissingNamesShortExample(rec: map<string, real>)
    requires "N" in rec && "tempreature" !in rec && "pH" !in rec
    ensures MissingNames(rec, ["N", "tempreature"]) == ["tempreature"]
  {
    assert ["N", "tempreature"][..1] == ["N"];
    assert ["N"][..0] == [];
  }

  /** The same record reports two missing names in the order they occur. */
  lemma MissingNamesTwoExample(rec: map<string, real>)
    requires "N" in rec && "tempreature" !in rec && "pH" !in rec
    ensures MissingNames(rec, ["tempreature", "N", "pH"]) == ["tempreature", "pH"]
  {
    assert ["tempreature"][..0] == [];
    assert MissingNames(rec, ["tempreature"]) == ["tempreature"];
    assert ["tempreature", "N"][..1] == ["tempreature"];
    assert MissingNames(rec, ["tempreature", "N"]) == ["tempreature"];
    assert ["tempreature", "N", "pH"][..2] == ["tempreature", "N"];
  }

  /** The same record reports a repeated missing name once, and a second one
      after it. */
  lemma MissingNamesRepeatExample(rec: map<string, real>)
    requires "N" in rec && "tempreature" !in rec && "pH" !in rec
    ensures MissingNames(rec, ["tempreature", "N", "pH", "tempreature"]) == ["tempreature", "pH"]
  {
    MissingNamesTwoExample(rec);
    assert ["tempreature", "N", "pH", "tempreature"][..3] == ["tempreature", "N", "pH"];
  }

  /** A name outside the record, such as a misspelt feature, is reported;
      several are reported together, each once, in order. */
  lemma MisspeltFeatureRejected(i: ScenarioInputs)
    ensures AssembleFeatures(i, ["N", "tempreature"]) == Failure(SchemaMismatch(["tempreature"]))
    ensures AssembleFeatures(i, ["tempreature", "N", "pH", "tempreature"])
         == Failure(SchemaMismatch(["tempreature", "pH"]))
  {
    var rec := AssembleRecord(i);
    assert "N" in RecordKeys && "tempreature" !in RecordKeys && "pH" !in RecordKeys;
    MissingNamesShortExample(rec);
    MissingNamesRepeatExample(rec);
  }
}

=== FILE: pipeline.dfy ===
/** The predict action end to end: assemble the row, ask the trained model,
    scale by land area, compare with history and plan resources. */
module Pipeline {

  import opened Wrappers
  import opened Errors
  import opened Crops
  import opened Features
  import opened Planner

  /** Everything the predict action shows. */
  datatype Report = Report(
    yieldPerHa: real,
    totalYield: real,
    historicalAvg: real,
    verdict: Verdict,
    needs: ResourceNeeds)

  /** The trained model is a parameter: any function from a feature row to a
      yield per hectare. Its output is used unchecked, negative or not. */
  function PredictAndPlan(i: ScenarioInputs, landArea: real, modelFeatures: seq<string>, predict: seq<real> -> real)
    : (r: Result<Report, PredictionError>)
    ensures r.Success? <==> forall j :: 0 <= j < |modelFeatures| ==> modelFeatures[j] in RecordKeys
    ensures r.Failure? ==> |r.error.missing| > 0
    ensures r.Failure? ==> forall x :: x in r.error.missing <==> x in modelFeatures && x !in RecordKeys
    ensures r.Failure? ==> r.error == SchemaMismatch(MissingNames(AssembleRecord(i), modelFeatures))
    ensures r.Success? ==>
              && AssembleFeatures(i, modelFeatures).Success?
              && r.value.yieldPerHa == predict(AssembleFeatures(i, modelFeatures).value)
              && r.value.historicalAvg == HistoricalAvgYield(i.crop)
              && r.value.totalYield == r.value.yieldPerHa * landArea
              && (r.value.verdict.Above? <==> r.value.yieldPerHa > r.value.historicalAvg)
              && (r.value.verdict.Below? <==> r.value.yieldPerHa < r.value.historicalAvg)
              && (!r.value.verdict.Equal? ==> r.value.verdict.percent > 0.0)
              && r.value.verdict == Compare(r.value.yieldPerHa, r.value.historicalAvg)
              && r.value.needs == Needs(i.crop, landArea)
  {
    var row :- AssembleFeatures(i, modelFeatures);
    var perHa := predict(row);
    var historical := HistoricalAvgYield(i.crop);
    var verdict := Compare(perHa, historical);
    Success(Report(perHa, perHa * landArea, historical, verdict, Needs(i.crop, landArea)))
  }

  /** The resource needs ignore the nutrient, pesticide and climate sliders:
      two requests for the same crop and area report the same needs, whatever
      the model predicts for them. */
  lemma NeedsIgnoreSliders(i: ScenarioInputs, j: ScenarioInputs, landArea: real, modelFeatures: seq<string>,
                           predict: seq<real> -> real)
    requires i.crop == j.crop
    requires PredictAndPlan(i, landArea, modelFeatures, predict).Success?
    ensures PredictAndPlan(j, landArea, modelFeatures, predict).Success?
    ensures PredictAndPlan(i, landArea, modelFeatures, predict).value.needs
         == PredictAndPlan(j, landArea, modelFeatures, predict).value.needs
  {
  }

  /** Ten hectares of maize predicted at 400 t/ha: 4000 t in all, above the
      363.10 t/ha average by (400 - 363.10) / 363.10 * 100 percent, and
      777.6 kg of nitrogen needed. */
  lemma MaizeTenHectares(i: ScenarioInputs, modelFeatures: seq<string>)
    requires i.crop == Maize
    requires forall j :: 0 <= j < |modelFeatures| ==> modelFeatures[j] in RecordKeys
    ensures var r := PredictAndPlan(i, 10.0, modelFeatures, row => 400.0);
            && r.Success?
            && r.value.totalYield == 4000.0
            && r.value.verdict == Above((400.0 - 363.10) / 363.10 * 100.0)
            && r.value.needs == ResourceNeeds(777.6, 484.4, 197.9, 3276.6)
  {
  }
}

=== FILE: planner.dfy ===
/** The arithmetic after a prediction: comparison with the crop's historical
    average and the resource needs of the land area. */
module Planner {

  import opened Crops

  /** How a predicted yield compares with the historical average. A percent
      is the size of the gap relative to the average, without sign. */
  datatype Verdict = Above(percent: real) | Below(percent: real) | Equal

  /** The relative gap with its sign, in percent of the historical average. */
  function SignedDelta(predicted: real, historical: real): real
    requires historical != 0.0
  {
    (predicted - historical) / historical * 100.0
  }

  /** Decides the verdict by comparing the two yields directly, then divides
      the gap by the historical average for the percentage. */
  function Compare(predicted: real, historical: real): (v: Verdict)
    requires historical > 0.0
    ensures v.Above? <==> predicted > historical
    ensures v.Below? <==> predicted < historical
    ensures v.Equal? <==> predicted == historical
    ensures !v.Equal? ==> v.percent > 0.0
    ensures !v.Equal? ==>
              v.percent * historical == (if predicted > historical then predicted - historical else historical - predicted) * 100.0
  {
    if predicted > historical then Above((predicted - historical) / historical * 100.0)
    else if predicted < historical then Below((historical - predicted) / historical * 100.0)
    else Equal
  }

  /** The verdict agrees with the sign of the signed delta; the Above percent
      is that delta and the Below percent is its negation. */
  lemma VerdictMatchesSignedDelta(predicted: real, historical: real)
    requires historical > 0.0
    ensures var v := Compare(predicted, historical);
            && (v.Above? <==> SignedDelta(predicted, historical) > 0.0)
            && (v.Below? <==> SignedDelta(predicted, historical) < 0.0)
            && (v.Equal? <==> SignedDelta(predicted, historical) == 0.0)
            && (v.Above? ==> v.percent == SignedDelta(predicted, historical))
            && (v.Below? ==> v.percent == -SignedDelta(predicted, historical))
  {
    var d := predicted - historical;
    assert SignedDelta(predicted, historical) == d / historical * 100.0;
    if d > 0.0 {
      assert d / historical > 0.0;
    } else if d < 0.0 {
      assert d / historical < 0.0;
      assert (historical - predicted) / historical == -(d / historical);
    }
  }

  /** Nutrients in kg and pesticides in tonnes needed for a land area. */
  datatype ResourceNeeds = ResourceNeeds(nitrogenKg: real, phosphorusKg: real, potassiumKg: real, pesticidesTonnes: real)

  /** The crop's static per-hectare averages scaled by the land area. */
  function Needs(c: Crop, landArea: real): (r: ResourceNeeds)
    ensures && r.nitrogenKg == Profile(c).n * landArea
            && r.phosphorusKg == Profile(c).p * landArea
            && r.potassiumKg == Profile(c).k * landArea
            && r.pesticidesTonnes == Profile(c).pesticidesBase * landArea
    ensures landArea != 0.0 ==>
              && r.nitrogenKg / landArea == Profile(c).n
              && r.phosphorusKg / landArea == Profile(c).p
              && r.potassiumKg / landArea == Profile(c).k
              && r.pesticidesTonnes / landArea == Profile(c).pesticidesBase
    ensures landArea > 0.0 ==>
              r.nitrogenKg > 0.0 && r.phosphorusKg > 0.0 && r.potassiumKg > 0.0 && r.pesticidesTonnes > 0.0
  {
    var pr := Profile(c);
    ResourceNeeds(pr.n * landArea, pr.p * landArea, pr.k * landArea, pr.pesticidesBase * landArea)
  }

  /** Needs add up over land: two plots need what their union needs. */
  lemma NeedsAdditive(c: Crop, a: real, b: real)
    ensures var x := Needs(c, a); var y := Needs(c, b); var z := Needs(c, a + b);
            && z.nitrogenKg == x.nitrogenKg + y.nitrogenKg
            && z.phosphorusKg == x.phosphorusKg + y.phosphorusKg
            && z.potassiumKg == x.potassiumKg + y.potassiumKg
            && z.pesticidesTonnes == x.pesticidesTonnes + y.pesticidesTonnes
  {
  }
}

=== FILE: scenarios.dfy ===
/** The named climate scenarios and the slider defaults they derive from the
    session baseline and the crop tables. */
module Scenarios {

  import opened Crops
  import opened Climate

  datatype Scenario = Baseline | ModerateWarming | SevereWarming

  /** A temperature offset in degrees Celsius added to the baseline and a
      factor the baseline rainfall is multiplied by. */
  datatype Adjustment = Adjustment(tempOffset: real, rainfallFactor: real)

  /** The scenario table: no change, +1.5 C with 10% less rain, and +3.0 C with
      25% less rain. */
  function Params(s: Scenario): (a: Adjustment)
    ensures a.tempOffset >= 0.0 && 0.0 < a.rainfallFactor <= 1.0
  {
    match s
    case Baseline => Adjustment(0.0, 1.0)
    case ModerateWarming => Adjustment(1.5, 0.9)
    case SevereWarming => Adjustment(3.0, 0.75)
  }

  /** Initial values of the seasonal-temperature and annual-rainfall sliders. */
  datatype SliderDefaults = SliderDefaults(temperature: real, annualRainfall: real)

  /** Applies an adjustment to a baseline: the temperature is shifted by the
      offset and the rainfall is scaled by the factor. */
  function Adjust(b: ClimateBaseline, a: Adjustment): (d: SliderDefaults)
    ensures d.temperature - a.tempOffset == b.avgTemp
    ensures d.annualRainfall == b.avgAnnualRainfall * a.rainfallFactor
    ensures a.rainfallFactor != 0.0 ==> d.annualRainfall / a.rainfallFactor == b.avgAnnualRainfall
  {
    SliderDefaults(b.avgTemp + a.tempOffset, b.avgAnnualRainfall * a.rainfallFactor)
  }

  /** The slider defaults of a named scenario. */
  function BuildDefaults(b: ClimateBaseline, s: Scenario): (d: SliderDefaults)
    ensures d.temperature >= b.avgTemp
    ensures b.avgAnnualRainfall >= 0.0 ==> 0.0 <= d.annualRainfall <= b.avgAnnualRainfall
  {
    Adjust(b, Params(s))
  }

  /** Undoes an adjustment whose rainfall factor is non-zero. */
  function RecoverBaseline(d: SliderDefaults, a: Adjustment): (b: ClimateBaseline)
    requires a.rainfallFactor != 0.0
    ensures Adjust(b, a) == d
  {
    ClimateBaseline(d.temperature - a.tempOffset, d.annualRainfall / a.rainfallFactor)
  }

  /** Every scenario's defaults determine the baseline they came from. */
  lemma ScenarioRoundTrip(b: ClimateBaseline, s: Scenario)
    ensures RecoverBaseline(BuildDefaults(b, s), Params(s)) == b
  {
  }

  /** The baseline scenario hands the session baseline to the sliders unchanged. */
  lemma BaselineScenarioIsIdentity(b: ClimateBaseline)
    ensures BuildDefaults(b, Baseline) == SliderDefaults(b.avgTemp, b.avgAnnualRainfall)
  {
  }

  /** The temperature default is linear in the offset: doubling the offset
      doubles its contribution, and a factor of 1 leaves rainfall unchanged. */
  lemma AdjustLinear(b: ClimateBaseline, offset: real, factor: real)
    ensures Adjust(b, Adjustment(2.0 * offset, factor)).temperature - b.avgTemp
         == 2.0 * (Adjust(b, Adjustment(offset, factor)).temperature - b.avgTemp)
    ensures Adjust(b, Adjustment(offset, 1.0)).annualRainfall == b.avgAnnualRainfall
  {
  }

  /** The scenarios are ordered: each step warms and, for a non-negative
      baseline rainfall, does not add rain. */
  lemma ScenariosOrdered(b: ClimateBaseline)
    requires b.avgAnnualRainfall >= 0.0
    ensures BuildDefaults(b, Baseline).temperature < BuildDefaults(b, ModerateWarming).temperature
    ensures BuildDefaults(b, ModerateWarming).temperature < BuildDefaults(b, SevereWarming).temperature
    ensures BuildDefaults(b, ModerateWarming).annualRainfall <= BuildDefaults(b, Baseline).annualRainfall
    ensures BuildDefaults(b, SevereWarming).annualRainfall <= BuildDefaults(b, ModerateWarming).annualRainfall
  {
  }

  /** Python's int() on a float: truncation toward zero. */
  function Truncate(x: real): (i: int)
    ensures x >= 0.0 ==> 0 <= i && i as real <= x < i as real + 1.0
    ensures x < 0.0 ==> i <= 0 && i as real - 1.0 < x <= i as real
  {
    if x >= 0.0 then x.Floor else -((-x).Floor)
  }

  /** Initial values of the nitrogen, phosphorus, potassium and pesticide sliders. */
  datatype NutrientDefaults = NutrientDefaults(n: int, p: int, k: int, pesticides: real)

  /** The nutrient sliders start at the crop's per-hectare averages truncated
      to whole kilograms; the pesticide slider starts at the exact average. */
  function NutrientSliderDefaults(c: Crop): (d: NutrientDefaults)
    ensures d.n as real <= Profile(c).n < d.n as real + 1.0
    ensures d.p as real <= Profile(c).p < d.p as real + 1.0
    ensures d.k as real <= Profile(c).k < d.k as real + 1.0
    ensures d.pesticides == Profile(c).pesticidesBase
  {
    var pr := Profile(c);
    NutrientDefaults(Truncate(pr.n), Truncate(pr.p), Truncate(pr.k), pr.pesticidesBase)
  }

  /** For maize the sliders start at 77, 48 and 19 kg/ha and 327.66 t/ha. */
  lemma MaizeNutrientDefaults()
    ensures NutrientSliderDefaults(Maize) == NutrientDefaults(77, 48, 19, 327.66)
  {
    var d := NutrientSliderDefaults(Maize);
    assert d.n == 77 && d.p == 48 && d.k == 19;
  }
}

=== FILE: wrappers.dfy ===
/** Optional values and computations that can fail, shared by every module. */
module Wrappers {

  /** A value that may be absent. */
  datatype Option<T> = None | Some(value: T)

  /** The outcome of a step that can fail: its value, or the error that
      stopped it. The three members below let `:-` pass an error on. */
  datatype Result<R, E> = Success(value: R) | Failure(error: E) {
    predicate IsFailure() {
      Failure?
    }

    function PropagateFailure<U>(): Result<U, E>
      requires Failure?
    {
      Failure(error)
    }

    function Extract(): R
      requires Success?
    {
      value
    }
  }
}
